=== FILE: README.md ===
# Music metadata batch converter, modelled in Dafny

The music-streaming service keeps one small JSON document per song in a folder.
Two scripts turn that folder into something a search engine or the front end can
load:

- `sg/app.py` builds a bulk-insert payload. Every song document becomes two
  newline-terminated lines: an index action `{"index": {"_index": "music", "_id": …}}`
  followed by the document itself. The `_id` is either a sequential counter
  (`create_elasticsearch_bulk_format`) or the document's `musicName` with the file
  stem as fallback (`create_bulk_with_custom_ids`). `preview_bulk_format` shows the
  lines for the first few files.
- `sg/index.py` merges the documents into one array of seven-field music records
  with sequential ids, filling each missing field from a fixed default table
  (`merge_json_to_array_with_id`). It can also preview the first records
  (`preview_array_format`) and count the files that parse (`validate_json_files`).

Six functions each have their own copy of the same per-file loop (app.py:31, 98 and
156; index.py:28, 85 and 125). The loop reads the folder's `*.json` files, each
first as UTF-8 with an optional byte-order mark and, only on a decoding error,
again as plain UTF-8. A file that fails is reported and skipped. Where there is a
counter, it advances only when a file succeeds.

The model defines the per-file read (`Loader.Read`) and the skip policy
(`Loader.Documents` and `Loader.Objects`) once. It has four per-file loops:
`CollectSequential`, `CollectCustom`, `CollectRecords` and `ValidateJsonFiles`.

The three converters (two in app.py, one in index.py) visit the files in sorted
name order. The two previews and `validate_json_files` visit them in the order the
directory lists them.

The project has five modules:

- `Json` (Json.dfy): JSON values, `dict.get`, and `str(n)` together with its
  parse-back.
- `Loader` (Loader.dfy): the shared loop pieces:
  - the per-file read outcome;
  - the `*.json` glob;
  - `Path.stem`;
  - which files survive the skip policy (`Documents` for the modes that pass any
    value through, `Objects` for the modes that call `.get`);
  - Python's `[:n]` slice;
  - how a run ends.
- `Ordering` (Ordering.dfy): `sorted(json_files)` as an insertion sort by code-point
  name order.
- `BulkFormat` (BulkFormat.dfy): app.py.
- `ArrayMerge` (ArrayMerge.dfy): index.py.

The loops are methods. Each is proved against a skip-on-error reference function
(`Documents` or `Objects`) and a pairing predicate (`SequentialPairing`,
`CustomPairing`, `MergedRecords`). The lemmas then derive from those predicates
what the scripts promise.

Inputs the scripts get from the outside world are parameters:

- The folder is a `Folder` value: absent, not a directory, or a directory whose
  entries come in directory order. Each entry carries its name and what each of
  the two reads yields.
- The compact encoder `json.dumps(..., separators=(',', ':'))` is a function
  parameter `dumps`.
- Whether the output file can be opened and written is a boolean `writable`.

## Model

| member | source | states |
|---|---|---|
| Json.Get | music-streaming/sg/index.py:43-48 | `document.get(key, default)` yields the stored value whenever the key is present, whatever it is, and the default only when the key is absent |
| Json.DecimalString | music-streaming/sg/app.py:47 | `str(n)` is a non-empty digit string with no leading zero unless n is 0, and is one digit exactly when n < 10 |
| Json.ParseDecimalString | music-streaming/sg/app.py:47 | reading an id string back as a decimal gives the counter value it was rendered from |
| Json.DecimalStringInjective | music-streaming/sg/index.py:42 | different counter values give different id strings |
| Loader.Read | music-streaming/sg/app.py:32-41 | a file parses exactly when the BOM-aware read loads, or that read hits a decoding error and the plain UTF-8 retry loads; the document comes from the read that succeeded; it is a JSON decode error exactly when the read that was used has invalid JSON; a decoding error on the retry falls to the generic handler |
| Loader.IsJsonName | music-streaming/sg/app.py:19 | the pattern `*.json`: the name ends in ".json" (case-sensitive; `*` may be empty or start with a dot) |
| Loader.MatchingEntries | music-streaming/sg/app.py:19 | the glob keeps exactly the directory entries whose names end in ".json", and never more entries than there are |
| Loader.MatchingEntriesConcat | music-streaming/sg/app.py:19 | the glob is an order-preserving filter: matching two runs of entries gives the matches of the first run followed by those of the second |
| Loader.MatchingEntriesCount | music-streaming/sg/index.py:16 | the glob lists each matching entry exactly as often as the directory does, and no other entry |
| Loader.JsonFiles | music-streaming/sg/index.py:16 | every listed file matches `*.json`; every matching entry of a directory is listed; a missing folder or a non-directory lists nothing |
| Loader.LastDot | music-streaming/sg/app.py:111 | `rfind('.')`: -1 or the index of a dot, with no dot after it |
| Loader.Stem | music-streaming/sg/index.py:46-48 | `PurePath.stem` is a prefix of the name; when shorter, it stops at the last dot, which is neither the first nor the last character; otherwise the name has no such dot |
| Loader.StemRoundTrip | music-streaming/sg/index.py:46-48 | a file named `<stem>.json`, for a non-empty stem, is matched by the glob and gives back that stem |
| Loader.StemOfJsonName | music-streaming/sg/index.py:46-48 | the stem of a matched file is its name without ".json", except for a file named exactly ".json", whose stem is the whole name |
| Loader.Documents | music-streaming/sg/index.py:125-141 | the files that parse contribute one document each, so there are never more documents than files |
| Loader.Objects | music-streaming/sg/app.py:111 | only files that parse to a top-level object survive `.get`, so there are never more entries than files |
| Loader.DocumentsConcat | music-streaming/sg/app.py:31 | the documents of two consecutive runs of files are those of the first run followed by those of the second |
| Loader.ObjectsConcat | music-streaming/sg/index.py:28 | the same for the objects kept by the `.get` modes |
| Loader.FailedFileContributesNothing | music-streaming/sg/app.py:57-60 | a file whose read fails contributes nothing in either mode |
| Loader.DocumentsExtend | music-streaming/sg/index.py:125-136 | processing one more file appends exactly that file's own contribution |
| Loader.ObjectsExtend | music-streaming/sg/index.py:28-52 | the same for the objects kept by the `.get` modes |
| Loader.SkipAndContinue | music-streaming/sg/app.py:125-128 | a failing file between two runs of files leaves their contributions exactly as if it were absent, in both modes |
| Loader.ObjectsAtMostDocuments | music-streaming/sg/app.py:111 | the `.get` modes never keep more files than the pass-through modes |
| Loader.PrefixContributions | music-streaming/sg/app.py:153 | a prefix of the files contributes a prefix of what all of them contribute, in both modes |
| Loader.SliceTo | music-streaming/sg/index.py:81 | `items[:n]` is a prefix: of length min(n, len) for n >= 0, and all but the last -n items, or none, for n < 0 |
| Loader.Conclude | music-streaming/sg/app.py:63-77 | the output is saved exactly when something was accumulated and the write succeeds, holding the accumulated contents; with nothing accumulated, nothing is written; an accumulated run whose write raises ends as a write failure |
| Ordering.NameLe | music-streaming/sg/app.py:31 | Python's `<=` on `str`: lexicographic by code point, a prefix coming first |
| Ordering.NameLeReflexive | music-streaming/sg/app.py:31 | name order is reflexive |
| Ordering.NameLeTotal | music-streaming/sg/app.py:31 | any two names are comparable |
| Ordering.NameLeAntisymmetric | music-streaming/sg/app.py:31 | two names ordered both ways are equal |
| Ordering.NameLeTransitive | music-streaming/sg/app.py:31 | name order is transitive |
| Ordering.Insert | music-streaming/sg/app.py:98 | insertion adds exactly the one file to the multiset of files |
| Ordering.InsertSorted | music-streaming/sg/app.py:98 | inserting into a name-ordered list keeps it name-ordered |
| Ordering.InsertBehindHead | music-streaming/sg/app.py:98 | inserting behind a smaller head keeps the list name-ordered |
| Ordering.SortByName | music-streaming/sg/index.py:28 | `sorted(json_files)` is name-ordered and a permutation of the files |
| Ordering.SortedTail | music-streaming/sg/app.py:31 | the tail of a name-ordered list is name-ordered |
| Ordering.SortedSameHead | music-streaming/sg/app.py:31 | two name-ordered arrangements of one directory's files start with the same file |
| Ordering.SortedUnique | music-streaming/sg/app.py:31 | two name-ordered arrangements of one directory's files are identical |
| Ordering.SortIgnoresEnumerationOrder | music-streaming/sg/app.py:31 | the processing order depends only on which files the folder holds, not on the order the directory lists them |
| Ordering.ListingOrderIrrelevant | music-streaming/sg/app.py:19-31 | two directories holding the same entries, listed in any order, give the same files in the same processing order |
| Ordering.SortKeepsSortedListing | music-streaming/sg/index.py:28 | a listing already in name order is processed in that order |
| BulkFormat.IndexDirective | music-streaming/sg/app.py:44-49 | the action line has the single key "index", holding exactly `_index` = "music" and `_id` = the given id |
| BulkFormat.CustomId | music-streaming/sg/app.py:111 | `document.get('musicName', json_file.stem)`: the `musicName` value when the key is present, else the stem |
| BulkFormat.SequentialStep | music-streaming/sg/app.py:52-55 | appending the next directive and body keeps the sequential pairing one document longer |
| BulkFormat.CustomStep | music-streaming/sg/app.py:111-123 | appending the next directive and body keeps the custom-id pairing one object longer |
| BulkFormat.CollectSequential | music-streaming/sg/app.py:27-60 | the loop leaves two lines per document that parses, in order: the directive numbered k + 1 for the k-th, then the document unchanged; failed files consume no number |
| BulkFormat.CollectCustom | music-streaming/sg/app.py:96-128 | the loop leaves two lines per file that parses to an object, in order: the directive whose `_id` is `musicName`, falling back to the stem, then the object unchanged |
| BulkFormat.Text | music-streaming/sg/app.py:65-67 | the file contents are empty exactly when there are no lines, and otherwise end with a newline, the last line's included |
| BulkFormat.TextAppend | music-streaming/sg/app.py:66-67 | writing one more line adds its encoding and a newline at the end of the file |
| BulkFormat.WriteBulkFile | music-streaming/sg/app.py:65-67 | the write loop produces every line's encoding followed by "\n", the last line included |
| BulkFormat.FirstNewline | music-streaming/sg/app.py:67 | the first newline of a text holding one: a newline, with none before it |
| BulkFormat.SplitLinesCons | music-streaming/sg/app.py:67 | a newline-free line followed by "\n" reads back as that line, then the rest |
| BulkFormat.TextReadsBack | music-streaming/sg/app.py:52-53 | when the encoder emits no raw newline, reading the file back line by line yields exactly the encoded lines, one per line |
| BulkFormat.BulkFileRoundTrip | music-streaming/sg/app.py:52-53 | when the parser inverts the encoding of every line, every line read back from the file parses to its original line |
| BulkFormat.PayloadReparses | music-streaming/sg/app.py:52-67 | reading the sequential payload back gives two lines per document, and the second line of the k-th pair parses to the k-th loaded document |
| BulkFormat.CreateElasticsearchBulkFormat | music-streaming/sg/app.py:5-77 | a missing folder or one without `*.json` files stops before any work; otherwise the lines pair the sorted files' documents with sequential ids, and the file holding them is saved only when there is at least one line and the write succeeds |
| BulkFormat.CreateBulkWithCustomIds | music-streaming/sg/app.py:79-144 | the same early exits; otherwise the lines pair the sorted files' objects with their custom ids, saved under the same conditions |
| BulkFormat.PreviewBulkFormat | music-streaming/sg/app.py:146-176 | the preview pairs the documents of the first `num_samples` files in directory order with ids from 1, so at most 2·num_samples lines for a non-negative count |
| BulkFormat.SequentialIds | music-streaming/sg/app.py:28-55 | the payload has even length; every directive names "music"; the k-th `_id` is a digit string that reads back as k + 1; no two directives are equal |
| BulkFormat.CustomIds | music-streaming/sg/app.py:111-123 | every directive names "music"; its `_id` is the document's `musicName` whenever that key is present, even when empty or not a string, and the stem only when the key is absent; the body is the object unchanged |
| BulkFormat.PreviewMatchesRun | music-streaming/sg/app.py:153-171 | when the directory lists its files in name order, the preview is exactly the first lines of the sequential payload |
| BulkFormat.PairingPrefix | music-streaming/sg/app.py:166-171 | pairing a prefix of the documents gives a prefix of the lines |
| BulkFormat.SequentialPairingUnique | music-streaming/sg/app.py:27-55 | the sequential pairing determines the payload: two payloads paired with the same documents are equal |
| BulkFormat.PayloadIgnoresListingOrder | music-streaming/sg/app.py:19-60 | two runs over directories holding the same entries, listed in different orders, produce the same sequential payload |
| ArrayMerge.DefaultFor | music-streaming/sg/index.py:43-48 | the default table: "Unknown Artist", "Unknown Date", "Unknown Album", the stem, "sg/thumbnails/<stem>.jpg" and "sg/<stem>.mp3" |
| ArrayMerge.MusicItem | music-streaming/sg/index.py:41-49 | a record has exactly the seven keys, and its `id` is `str(id_counter)` |
| ArrayMerge.MusicItemFields | music-streaming/sg/index.py:43-48 | each copied key holds the document's value verbatim when present, whatever it is, and the value from the default table only when absent |
| ArrayMerge.MergedStep | music-streaming/sg/index.py:51-52 | appending the next record keeps the merged array one entry longer |
| ArrayMerge.CollectRecords | music-streaming/sg/index.py:24-57 | the loop leaves one record per file that parses to an object, in order, the k-th numbered k + 1; failed files consume no number |
| ArrayMerge.MergeJsonToArrayWithId | music-streaming/sg/index.py:5-72 | a missing folder or one without `*.json` files stops early; otherwise the array holds the records of the sorted files' objects, and it is saved only when it is not empty and the write succeeds |
| ArrayMerge.PreviewArrayFormat | music-streaming/sg/index.py:74-113 | the preview holds the records of the objects among the first `num_samples` files in directory order, numbered from 1, so at most num_samples records for a non-negative count |
| ArrayMerge.ValidateJsonFiles | music-streaming/sg/index.py:115-143 | the valid count is exactly the number of matched files that parse, whatever the value, and the total is the number of matched files, so valid <= total |
| ArrayMerge.MergedIds | music-streaming/sg/index.py:41-52 | every record is an object with exactly the seven keys; its `id` is a digit string reading back as its position from 1; no two records share an `id` |
| ArrayMerge.EmptyDocumentDefaults | music-streaming/sg/index.py:42-48 | an empty document gets every default: the three "Unknown …" strings, the stem, and the stem-derived thumbnail and audio paths |
| ArrayMerge.OtherKeysIgnored | music-streaming/sg/index.py:41-49 | document keys outside the six copied ones, including a document's own `id`, do not affect the record |
| ArrayMerge.PreviewMatchesMerge | music-streaming/sg/index.py:81-107 | when the directory lists its files in name order, the preview is exactly the first records of the merged array |
| ArrayMerge.MergedPrefix | music-streaming/sg/index.py:95-107 | records built from a prefix of the entries are a prefix of the records |
| ArrayMerge.ArrayIgnoresListingOrder | music-streaming/sg/index.py:16-52 | two merges over directories holding the same entries, listed in different orders, produce the same array |

## Left out

- Console output and the interactive menus are not modelled. This covers `print`, `input` and the `__main__` blocks of both scripts.
- Some `print` calls sit inside the per-file `try`: app.py:33 and 100, index.py:30, and index.py:135 (which runs before `valid_count += 1`). One of them can raise, for example when stdout cannot encode the name or the pipe is closed. That would send the file to the generic handler, whose own `print` of the name would then raise uncaught and abort the run. Neither effect is modelled.
- JSON parsing and encoding are foreign library calls:
  - What each read attempt yields is part of the input, per file.
  - The compact encoder is the parameter `dumps`, so whether it escapes non-ASCII (app.py uses the default `ensure_ascii=True`) is not modelled.
  - The indented `json.dump(..., indent=2, ensure_ascii=False)` of the merged array is not modelled; the model stops at the array value handed to it.
- JSON objects are maps, so key order is not modelled. The `music_item` dicts of `merge_json_to_array_with_id` (index.py:41-49) and `preview_array_format` (index.py:95-104) differ only in key order, so one `MusicItem` serves both.
- JSON numbers are a `real`, so float precision and formatting are not modelled. The non-standard constants `NaN`, `Infinity` and `-Infinity`, which `json.load` accepts, have no `real` value and are not represented.
- Strings cannot hold lone surrogates. Dafny's `char` excludes the surrogate range, so `Str(s)` and `SourceFile.name` cannot hold a lone surrogate, although a Python `str` can. A `"\ud800"` escape read by `json.load` produces one, and so does a POSIX file name with undecodable bytes, which reaches the stem defaults. Writing such a string with `json.dump(..., ensure_ascii=False)` into the UTF-8 file at index.py:62-63 raises UnicodeEncodeError. The model reaches `WriteFailed` only through the free `writable` flag and does not represent those strings.
- Partial writes are not modelled. Opening and writing the output is one boolean `writable`, and a run that fails halfway through the write ends as `WriteFailed`.
- The output file names and the default folder names are not modelled, because they only locate files.
- `num_samples` has no default value in the model; the scripts default it to 2.
- Paths and files follow POSIX rules. The glob `*.json` is case-sensitive, `sorted()` on paths compares the names as they are, and the text-mode output file stores each `'\n'` as written. Windows behaviour is not modelled:
  - `Path.glob` matches case-insensitively there.
  - Paths compare by case-folded names there.
  - The text-mode `open(output_file, 'w', ...)` at app.py:65 and 132 writes each newline as `"\r\n"`, which `BulkFormat.Text` does not model.
- Names are compared by Python string order on the full name. Paths in one folder share their parent, so their order is that of their names.
- `Loader.Read` takes the two read attempts of a file as independent inputs. Some combinations cannot occur with real files: the BOM-aware read and the plain UTF-8 read fail to decode on the same bytes, so a retry never loads after a decoding error. The model admits those combinations and handles them as the nested `try` would.
- `Ordering.UniqueNames` and `Ordering.Sorted` describe the directory listing. A real directory never lists a name twice; the lemmas that need this take it as a precondition rather than derive it from the file system.
- BulkFormat.TextReadsBack: holds only when the encoding of each line contains no raw newline. The compact `json.dumps` escapes newlines inside strings, but that is not proved here.
- BulkFormat.BulkFileRoundTrip: assumes `json.loads` inverts the encoding of each written line. This holds for `json.dumps` on the values Python can hold, but it is not proved here.
- The `auth-server` module (`AuthEntryPointJwt.java`) is a web-framework callback that only sets an HTTP 401 status. It is not part of this model.
- The custom `_id` is the `musicName` value whenever the key is present, even when it is empty or not a string (app.py:111). The bulk lines go through `json.dumps` with its default ASCII escaping (app.py:52-53, 122-123). Encoding is abstracted, so the escaping is not modelled.

=== FILE: ArrayMerge.dfy ===
/**
 * The merged array: every document that loads to an object becomes a
 * seven-field music record with a sequential `id`, missing fields filled
 * from a fixed default table. The array is what `json.dump(music_array, ...)`
 * receives; its text encoding is not modelled.
 */
module ArrayMerge {
  import opened Json
  import opened Loader
  import opened Ordering

  /** The keys of every merged record. */
  const RecordKeys: set<string> :=
    {"id", "artistName", "createdDate", "album", "musicName", "musicThumbnailUrl", "musicUrl"}

  /** The record keys copied from the document when present. */
  const CopiedKeys: set<string> := RecordKeys - {"id"}

  /** The default table: what a record holds for a key the document lacks. */
  function DefaultFor(key: string, stem: string): JsonValue
    requires key in CopiedKeys
  {
    if key == "artistName" then Str("Unknown Artist")
    else if key == "createdDate" then Str("Unknown Date")
    else if key == "album" then Str("Unknown Album")
    else if key == "musicName" then Str(stem)
    else if key == "musicThumbnailUrl" then Str("sg/thumbnails/" + stem + ".jpg")
    else Str("sg/" + stem + ".mp3")
  }

  /** The `music_item` dict: exactly the seven record keys, `id` being the counter. */
  function MusicItem(fields: map<string, JsonValue>, stem: string, id: nat): (item: map<string, JsonValue>)
    ensures item.Keys == RecordKeys
    ensures item["id"] == Str(DecimalString(id))
  {
    map[
      "id" := Str(DecimalString(id)),
      "artistName" := Get(fields, "artistName", Str("Unknown Artist")),
      "createdDate" := Get(fields, "createdDate", Str("Unknown Date")),
      "album" := Get(fields, "album", Str("Unknown Album")),
      "musicName" := Get(fields, "musicName", Str(stem)),
      "musicThumbnailUrl" := Get(fields, "musicThumbnailUrl", Str("sg/thumbnails/" + stem + ".jpg")),
      "musicUrl" := Get(fields, "musicUrl", Str("sg/" + stem + ".mp3"))
    ]
  }

  /**
   * Every copied key of a record is the document's value, whatever it is
   * (null, empty, not a string), when the key is present, and the default
   * from the table only when it is absent.
   */
  lemma MusicItemFields(fields: map<string, JsonValue>, stem: string, id: nat)
    ensures forall key :: key in CopiedKeys && key in fields ==> MusicItem(fields, stem, id)[key] == fields[key]
    ensures forall key :: key in CopiedKeys && key !in fields ==> MusicItem(fields, stem, id)[key] == DefaultFor(key, stem)
  {
  }

  /** The k-th loaded object (from 0) becomes the record numbered k + 1, in order. */
  predicate MergedRecords(items: seq<JsonValue>, entries: seq<Entry>) {
    && |items| == |entries|
    && forall k :: 0 <= k < |entries| ==>
         items[k] == Object(MusicItem(entries[k].fields, entries[k].stem, k + 1))
  }

  lemma MergedStep(items: seq<JsonValue>, entries: seq<Entry>, e: Entry)
    requires MergedRecords(items, entries)
    ensures MergedRecords(items + [Object(MusicItem(e.fields, e.stem, |entries| + 1))], entries + [e])
  {
    var items' := items + [Object(MusicItem(e.fields, e.stem, |entries| + 1))];
    var entries' := entries + [e];
    forall k | 0 <= k < |entries'|
      ensures items'[k] == Object(MusicItem(entries'[k].fields, entries'[k].stem, k + 1))
    {
      if k < |entries| {
        assert items'[k] == items[k];
      }
    }
  }

  /**
   * The per-file loop of the merge over files already in processing order:
   * a file whose document loads and answers `.get` adds one record and
   * advances the counter; any failure adds nothing.
   */
  method CollectRecords(files: seq<SourceFile>) returns (musicArray: seq<JsonValue>)
    ensures MergedRecords(musicArray, Objects(files))
  {
    musicArray := [];
    var idCounter := 1;
    var i := 0;
    assert files[..0] == [];
    while i < |files|
      invariant 0 <= i <= |files|
      invariant idCounter == |Objects(files[..i])| + 1
      invariant MergedRecords(musicArray, Objects(files[..i]))
    {
      ghost var done := Objects(files[..i]);
      ObjectsExtend(files, i);
      var outcome := Read(files[i]);
      // `document.get` raises unless the document is an object
      if outcome.Parsed? && outcome.document.Object? {
        var fields, stem := outcome.document.fields, Stem(files[i].name);
        assert Objects(files[..i + 1]) == done + [Entry(stem, fields)];
        MergedStep(musicArray, done, Entry(stem, fields));
        musicArray := musicArray + [Object(MusicItem(fields, stem, idCounter))];
        idCounter := idCounter + 1;
      } else {
        assert Objects(files[..i + 1]) == done;
      }
      i := i + 1;
    }
    assert files[..i] == files;
  }

  /**
   * `merge_json_to_array_with_id`: give up early when the folder is missing
   * or matches nothing; otherwise merge the loadable objects in name order
   * and hand the array to the writer only when it is not empty. `writable`
   * stands for whether opening and writing the output succeeds.
   */
  method MergeJsonToArrayWithId(folder: Folder, writable: bool)
    returns (outcome: RunOutcome<JsonValue>, musicArray: seq<JsonValue>)
    ensures folder.Absent? ==> outcome == FolderMissing && musicArray == []
    ensures !folder.Absent? && JsonFiles(folder) == [] ==> outcome == NoJsonFiles && musicArray == []
    ensures !folder.Absent? && JsonFiles(folder) != [] ==>
              && MergedRecords(musicArray, Objects(SortByName(JsonFiles(folder))))
              && outcome == Conclude(musicArray != [], writable, Array(musicArray))
  {
    if folder.Absent? {
      return FolderMissing, [];
    }
    var jsonFiles := JsonFiles(folder);
    if jsonFiles == [] {
      return NoJsonFiles, [];
    }
    musicArray := CollectRecords(SortByName(jsonFiles));
    if musicArray == [] {
      outcome := NothingToWrite;
    } else if !writable {
      outcome := WriteFailed;
    } else {
      outcome := Saved(Array(musicArray));
    }
  }

  /**
   * `preview_array_format`: the records built for the first `numSamples`
   * files in directory order (not sorted), numbered from 1.
   */
  method PreviewArrayFormat(folder: Folder, numSamples: int) returns (previewArray: seq<JsonValue>)
    ensures MergedRecords(previewArray, Objects(SliceTo(JsonFiles(folder), numSamples)))
    ensures 0 <= numSamples ==> |previewArray| <= numSamples
  {
    previewArray := CollectRecords(SliceTo(JsonFiles(folder), numSamples));
  }

  /**
   * `validate_json_files`: how many of the matched files load (any JSON
   * value counts, no `.get` is made) and how many were matched.
   */
  method ValidateJsonFiles(folder: Folder) returns (validCount: nat, total: nat)
    ensures validCount == |Documents(JsonFiles(folder))|
    ensures total == |JsonFiles(folder)|
    ensures validCount <= total
  {
    var jsonFiles := JsonFiles(folder);
    validCount := 0;
    for i := 0 to |jsonFiles|
      invariant validCount == |Documents(jsonFiles[..i])|
    {
      DocumentsExtend(jsonFiles, i);
      if Read(jsonFiles[i]).Parsed? {
        validCount := validCount + 1;
      }
    }
    assert jsonFiles[..|jsonFiles|] == jsonFiles;
    total := |jsonFiles|;
  }

  /**
   * Every merged record has exactly the seven keys, its `id` reads back as
   * its position counted from 1, and no two records share an `id`.
   */
  lemma MergedIds(items: seq<JsonValue>, entries: seq<Entry>)
    requires MergedRecords(items, entries)
    ensures forall k :: 0 <= k < |items| ==>
              && items[k].Object?
              && items[k].fields.Keys == RecordKeys
              && items[k].fields["id"].Str?
              && IsDigits(items[k].fields["id"].s)
              && ParseDecimal(items[k].fields["id"].s) == k + 1
    ensures forall i, j :: 0 <= i < j < |items| ==> items[i].fields["id"] != items[j].fields["id"]
  {
    forall n: nat | 1 <= n <= |items|
      ensures ParseDecimal(DecimalString(n)) == n
    {
      ParseDecimalString(n);
    }
  }

  /** A document `{}` gets every default. */
  lemma EmptyDocumentDefaults(stem: string, id: nat)
    ensures MusicItem(map[], stem, id) == map[
              "id" := Str(DecimalString(id)),
              "artistName" := Str("Unknown Artist"),
              "createdDate" := Str("Unknown Date"),
              "album" := Str("Unknown Album"),
              "musicName" := Str(stem),
              "musicThumbnailUrl" := Str("sg/thumbnails/" + stem + ".jpg"),
              "musicUrl" := Str("sg/" + stem + ".mp3")]
  {
  }

  /** Keys outside the record (an `id` of the document's own included) have no effect on it. */
  lemma OtherKeysIgnored(fields: map<string, JsonValue>, key: string, value: JsonValue, stem: string, id: nat)
    requires key !in CopiedKeys
    ensures MusicItem(fields[key := value], stem, id) == MusicItem(fields, stem, id)
  {
    var a, b := MusicItem(fields[key := value], stem, id), MusicItem(fields, stem, id);
    forall k | k in RecordKeys
      ensures a[k] == b[k]
    {
      if k != "id" {
        assert k in CopiedKeys;
        assert (k in fields[key := value]) == (k in fields);
      }
    }
  }

  /**
   * When the directory happens to list its files in name order, the preview
   * shows exactly the first records of the merged array.
   */
  lemma PreviewMatchesMerge(listing: seq<SourceFile>, numSamples: int, preview: seq<JsonValue>, merged: seq<JsonValue>)
    requires Sorted(listing) && UniqueNames(listing)
    requires MergedRecords(preview, Objects(SliceTo(listing, numSamples)))
    requires MergedRecords(merged, Objects(SortByName(listing)))
    ensures |preview| <= |merged| && preview == merged[..|preview|]
  {
    SortKeepsSortedListing(listing);
    var sample := SliceTo(listing, numSamples);
    assert sample == listing[..|sample|];
    PrefixContributions(listing, |sample|);
    MergedPrefix(preview, merged, Objects(sample), Objects(listing));
  }

  /** Records built from a prefix of the entries form a prefix of the records. */
  lemma MergedPrefix(few: seq<JsonValue>, all: seq<JsonValue>, fewEntries: seq<Entry>, allEntries: seq<Entry>)
    requires |fewEntries| <= |allEntries| && fewEntries == allEntries[..|fewEntries|]
    requires MergedRecords(few, fewEntries) && MergedRecords(all, allEntries)
    ensures |few| <= |all| && few == all[..|few|]
  {
    forall k | 0 <= k < |few|
      ensures few[k] == all[k]
    {
      assert fewEntries[k] == allEntries[k];
    }
  }

  /**
   * Two merges of directories holding the same entries, listed in different
   * orders, produce the same array.
   */
  lemma ArrayIgnoresListingOrder(a: Folder, b: Folder, itemsA: seq<JsonValue>, itemsB: seq<JsonValue>)
    requires a.Directory? && b.Directory?
    requires multiset(a.entries) == multiset(b.entries) && UniqueNames(b.entries)
    requires MergedRecords(itemsA, Objects(SortByName(JsonFiles(a))))
    requires MergedRecords(itemsB, Objects(SortByName(JsonFiles(b))))
    ensures itemsA == itemsB
  {
    ListingOrderIrrelevant(a, b);
  }
}

=== FILE: BulkFormat.dfy ===
/**
 * The search-engine bulk payload: every document that loads becomes an index
 * action line followed by the document itself, and the file holds every line
 * followed by a newline. Lines are kept as JSON values; the compact encoder
 * `json.dumps(..., separators=(',', ':'))` is the parameter `dumps`.
 */
module BulkFormat {
  import opened Json
  import opened Loader
  import opened Ordering

  /** The index every action line names. */
  const IndexName: string := "music"

  /** The action line `{"index": {"_index": "music", "_id": id}}`. */
  function IndexDirective(id: JsonValue): (line: JsonValue)
    ensures line.Object? && line.fields.Keys == {"index"}
    ensures line.fields["index"].Object? && line.fields["index"].fields.Keys == {"_index", "_id"}
    ensures line.fields["index"].fields["_index"] == Str("music")
    ensures line.fields["index"].fields["_id"] == id
  {
    Object(map["index" := Object(map["_index" := Str(IndexName), "_id" := id])])
  }

  /**
   * Sequential mode: one action line and one body line per document, in
   * order; the k-th document (from 0) is numbered k + 1 and is passed through unchanged.
   */
  predicate SequentialPairing(lines: seq<JsonValue>, docs: seq<JsonValue>) {
    && |lines| == 2 * |docs|
    && forall k :: 0 <= k < |docs| ==>
         lines[2 * k] == IndexDirective(Str(DecimalString(k + 1))) && lines[2 * k + 1] == docs[k]
  }

  /** `document.get('musicName', json_file.stem)`: whatever `musicName` holds, else the stem. */
  function CustomId(e: Entry): JsonValue {
    Get(e.fields, "musicName", Str(e.stem))
  }

  /** Custom-id mode: one action line and one body line per loaded object, in order. */
  predicate CustomPairing(lines: seq<JsonValue>, entries: seq<Entry>) {
    && |lines| == 2 * |entries|
    && forall k :: 0 <= k < |entries| ==>
         lines[2 * k] == IndexDirective(CustomId(entries[k])) && lines[2 * k + 1] == Object(entries[k].fields)
  }

  lemma SequentialStep(lines: seq<JsonValue>, docs: seq<JsonValue>, doc: JsonValue)
    requires SequentialPairing(lines, docs)
    ensures SequentialPairing(lines + [IndexDirective(Str(DecimalString(|docs| + 1))), doc], docs + [doc])
  {
    var lines' := lines + [IndexDirective(Str(DecimalString(|docs| + 1))), doc];
    var docs' := docs + [doc];
    forall k | 0 <= k < |docs'|
      ensures lines'[2 * k] == IndexDirective(Str(DecimalString(k + 1))) && lines'[2 * k + 1] == docs'[k]
    {
      if k < |docs| {
        assert lines'[2 * k] == lines[2 * k] && lines'[2 * k + 1] == lines[2 * k + 1];
      } else {
        assert lines'[2 * k] == lines'[|lines|] && lines'[2 * k + 1] == lines'[|lines| + 1];
      }
    }
  }

  lemma CustomStep(lines: seq<JsonValue>, entries: seq<Entry>, e: Entry)
    requires CustomPairing(lines, entries)
    ensures CustomPairing(lines + [IndexDirective(CustomId(e)), Object(e.fields)], entries + [e])
  {
    var lines' := lines + [IndexDirective(CustomId(e)), Object(e.fields)];
    var entries' := entries + [e];
    forall k | 0 <= k < |entries'|
      ensures lines'[2 * k] == IndexDirective(CustomId(entries'[k])) && lines'[2 * k + 1] == Object(entries'[k].fields)
    {
      if k < |entries| {
        assert lines'[2 * k] == lines[2 * k] && lines'[2 * k + 1] == lines[2 * k + 1];
      } else {
        assert lines'[2 * k] == lines'[|lines|] && lines'[2 * k + 1] == lines'[|lines| + 1];
      }
    }
  }

  /**
   * The per-file loop of the sequential mode over files already in
   * processing order: a file that loads adds its two lines and advances the
   * counter; any failure adds nothing and leaves the counter alone.
   */
  method CollectSequential(files: seq<SourceFile>) returns (lines: seq<JsonValue>)
    ensures SequentialPairing(lines, Documents(files))
  {
    lines := [];
    var docId := 1;
    var i := 0;
    assert files[..0] == [];
    while i < |files|
      invariant 0 <= i <= |files|
      invariant docId == |Documents(files[..i])| + 1
      invariant SequentialPairing(lines, Documents(files[..i]))
    {
      DocumentsExtend(files, i);
      match Read(files[i]) {
        case Parsed(document) =>
          SequentialStep(lines, Documents(files[..i]), document);
          lines := lines + [IndexDirective(Str(DecimalString(docId))), document];
          docId := docId + 1;
        case DecodeError =>
        case OtherError =>
      }
      i := i + 1;
    }
    assert files[..i] == files;
  }

  /**
   * The per-file loop of the custom-id mode: only files that load to an
   * object get past `document.get`, and nothing is counted.
   */
  method CollectCustom(files: seq<SourceFile>) returns (lines: seq<JsonValue>)
    ensures CustomPairing(lines, Objects(files))
  {
    lines := [];
    var i := 0;
    assert files[..0] == [];
    while i < |files|
      invariant 0 <= i <= |files|
      invariant CustomPairing(lines, Objects(files[..i]))
    {
      ghost var done := Objects(files[..i]);
      ObjectsExtend(files, i);
      var outcome := Read(files[i]);
      // `document.get` raises unless the document is an object
      if outcome.Parsed? && outcome.document.Object? {
        var fields := outcome.document.fields;
        var entry := Entry(Stem(files[i].name), fields);
        var docId := CustomId(entry);
        assert Objects(files[..i + 1]) == done + [entry];
        CustomStep(lines, done, entry);
        lines := lines + [IndexDirective(docId), Object(fields)];
      } else {
        assert Objects(files[..i + 1]) == done;
      }
      i := i + 1;
    }
    assert files[..i] == files;
  }

  /** The contents of the bulk file: every line's encoding followed by "\n", the last one included. */
  function Text(lines: seq<JsonValue>, dumps: JsonValue -> string): (text: string)
    ensures text == [] <==> lines == []
    ensures lines != [] ==> text[|text| - 1] == '\n'
  {
    if lines == [] then "" else dumps(lines[0]) + "\n" + Text(lines[1..], dumps)
  }

  lemma {:induction false} TextAppend(lines: seq<JsonValue>, line: JsonValue, dumps: JsonValue -> string)
    ensures Text(lines + [line], dumps) == Text(lines, dumps) + dumps(line) + "\n"
    decreases |lines|
  {
    if lines == [] {
      assert [line][1..] == [];
    } else {
      assert (lines + [line])[0] == lines[0] && (lines + [line])[1..] == lines[1..] + [line];
      TextAppend(lines[1..], line, dumps);
      var head, rest := dumps(lines[0]) + "\n", Text(lines[1..], dumps);
      calc {
        Text(lines + [line], dumps);
        head + Text(lines[1..] + [line], dumps);
        head + (rest + dumps(line) + "\n");
        (head + rest) + dumps(line) + "\n";
      }
    }
  }

  /** `for line in bulk_data_lines: f.write(line + '\n')`. */
  method WriteBulkFile(lines: seq<JsonValue>, dumps: JsonValue -> string) returns (text: string)
    ensures text == Text(lines, dumps)
  {
    text := "";
    for i := 0 to |lines|
      invariant text == Text(lines[..i], dumps)
    {
      assert lines[..i + 1] == lines[..i] + [lines[i]];
      TextAppend(lines[..i], lines[i], dumps);
      text := text + dumps(lines[i]) + "\n";
    }
    assert lines[..|lines|] == lines;
  }

  /** Position of the first newline. */
  function FirstNewline(text: string): (i: nat)
    requires '\n' in text
    ensures i < |text| && text[i] == '\n'
    ensures forall j :: 0 <= j < i ==> text[j] != '\n'
  {
    if text[0] == '\n' then 0 else FirstNewline(text[1..]) + 1
  }

  /** How a consumer reads newline-terminated lines back from the file. */
  function SplitLines(text: string): seq<string>
    decreases |text|
  {
    if '\n' !in text then (if text == [] then [] else [text])
    else
      var i := FirstNewline(text);
      [text[..i]] + SplitLines(text[i + 1..])
  }

  lemma SplitLinesCons(line: string, rest: string)
    requires '\n' !in line
    ensures SplitLines(line + "\n" + rest) == [line] + SplitLines(rest)
  {
    var text := line + "\n" + rest;
    assert text[|line|] == '\n';
    var i := FirstNewline(text);
    assert i == |line|;
    assert text[..i] == line && text[i + 1..] == rest;
  }

  /**
   * When the encoder never emits a raw newline (compact `json.dumps` escapes
   * them), reading the file back line by line recovers every encoded line.
   */
  lemma {:induction false} TextReadsBack(lines: seq<JsonValue>, dumps: JsonValue -> string)
    requires forall k :: 0 <= k < |lines| ==> '\n' !in dumps(lines[k])
    ensures |SplitLines(Text(lines, dumps))| == |lines|
    ensures forall k :: 0 <= k < |lines| ==> SplitLines(Text(lines, dumps))[k] == dumps(lines[k])
    decreases |lines|
  {
    if lines == [] {
      assert '\n' !in "";
    } else {
      assert forall k :: 0 <= k < |lines[1..]| ==> lines[1..][k] == lines[k + 1];
      TextReadsBack(lines[1..], dumps);
      SplitLinesCons(dumps(lines[0]), Text(lines[1..], dumps));
      var read := SplitLines(Text(lines, dumps));
      forall k | 0 <= k < |lines|
        ensures read[k] == dumps(lines[k])
      {
        if k > 0 {
          assert read[k] == SplitLines(Text(lines[1..], dumps))[k - 1];
          assert lines[k] == lines[1..][k - 1];
        }
      }
    }
  }

  /**
   * Round trip through the bulk file: when `loads` inverts the encoding of
   * every line, parsing the lines read back gives back every line.
   */
  lemma BulkFileRoundTrip(lines: seq<JsonValue>, dumps: JsonValue -> string, loads: string -> JsonValue)
    requires forall k :: 0 <= k < |lines| ==> '\n' !in dumps(lines[k])
    requires forall k :: 0 <= k < |lines| ==> loads(dumps(lines[k])) == lines[k]
    ensures |SplitLines(Text(lines, dumps))| == |lines|
    ensures forall k :: 0 <= k < |lines| ==> loads(SplitLines(Text(lines, dumps))[k]) == lines[k]
  {
    TextReadsBack(lines, dumps);
  }

  /**
   * Reading the sequential payload back from its file and parsing every
   * second line gives back the loaded documents, in order.
   */
  lemma PayloadReparses(lines: seq<JsonValue>, docs: seq<JsonValue>, dumps: JsonValue -> string, loads: string -> JsonValue)
    requires SequentialPairing(lines, docs)
    requires forall k :: 0 <= k < |lines| ==> '\n' !in dumps(lines[k])
    requires forall k :: 0 <= k < |lines| ==> loads(dumps(lines[k])) == lines[k]
    ensures |SplitLines(Text(lines, dumps))| == 2 * |docs|
    ensures forall k :: 0 <= k < |docs| ==> loads(SplitLines(Text(lines, dumps))[2 * k + 1]) == docs[k]
  {
    BulkFileRoundTrip(lines, dumps, loads);
  }

  /**
   * `create_elasticsearch_bulk_format`: give up early when the folder is
   * missing or matches nothing; otherwise number the loadable documents in
   * name order and write the file only when at least one was converted.
   * `writable` stands for whether opening and writing the output succeeds.
   */
  method CreateElasticsearchBulkFormat(folder: Folder, dumps: JsonValue -> string, writable: bool)
    returns (outcome: RunOutcome<string>, lines: seq<JsonValue>)
    ensures folder.Absent? ==> outcome == FolderMissing && lines == []
    ensures !folder.Absent? && JsonFiles(folder) == [] ==> outcome == NoJsonFiles && lines == []
    ensures !folder.Absent? && JsonFiles(folder) != [] ==>
              && SequentialPairing(lines, Documents(SortByName(JsonFiles(folder))))
              && outcome == Conclude(lines != [], writable, Text(lines, dumps))
  {
    if folder.Absent? {
      return FolderMissing, [];
    }
    var jsonFiles := JsonFiles(folder);
    if jsonFiles == [] {
      return NoJsonFiles, [];
    }
    lines := CollectSequential(SortByName(jsonFiles));
    if lines == [] {
      outcome := NothingToWrite;
    } else if !writable {
      outcome := WriteFailed;
    } else {
      var text := WriteBulkFile(lines, dumps);
      outcome := Saved(text);
    }
  }

  /**
   * `create_bulk_with_custom_ids`: as the sequential mode, except that the
   * `_id` comes from the document's `musicName` (or the file stem) and only
   * top-level objects are converted.
   */
  method CreateBulkWithCustomIds(folder: Folder, dumps: JsonValue -> string, writable: bool)
    returns (outcome: RunOutcome<string>, lines: seq<JsonValue>)
    ensures folder.Absent? ==> outcome == FolderMissing && lines == []
    ensures !folder.Absent? && JsonFiles(folder) == [] ==> outcome == NoJsonFiles && lines == []
    ensures !folder.Absent? && JsonFiles(folder) != [] ==>
              && CustomPairing(lines, Objects(SortByName(JsonFiles(folder))))
              && outcome == Conclude(lines != [], writable, Text(lines, dumps))
  {
    if folder.Absent? {
      return FolderMissing, [];
    }
    var jsonFiles := JsonFiles(folder);
    if jsonFiles == [] {
      return NoJsonFiles, [];
    }
    lines := CollectCustom(SortByName(jsonFiles));
    if lines == [] {
      outcome := NothingToWrite;
    } else if !writable {
      outcome := WriteFailed;
    } else {
      var text := WriteBulkFile(lines, dumps);
      outcome := Saved(text);
    }
  }

  /**
   * `preview_bulk_format`: the lines printed for the first `numSamples`
   * files in directory order (not sorted), numbered from 1.
   */
  method PreviewBulkFormat(folder: Folder, numSamples: int) returns (printed: seq<JsonValue>)
    ensures SequentialPairing(printed, Documents(SliceTo(JsonFiles(folder), numSamples)))
    ensures 0 <= numSamples ==> |printed| <= 2 * numSamples
  {
    printed := CollectSequential(SliceTo(JsonFiles(folder), numSamples));
  }

  /**
   * In sequential mode every action line names the index "music", its `_id`
   * reads back as the document's position counted from 1, and no two
   * documents share an `_id`.
   */
  lemma SequentialIds(lines: seq<JsonValue>, docs: seq<JsonValue>)
    requires SequentialPairing(lines, docs)
    ensures |lines| % 2 == 0
    ensures forall k :: 0 <= k < |docs| ==>
              && lines[2 * k].fields["index"].fields["_index"] == Str("music")
              && lines[2 * k].fields["index"].fields["_id"].Str?
              && IsDigits(lines[2 * k].fields["index"].fields["_id"].s)
              && ParseDecimal(lines[2 * k].fields["index"].fields["_id"].s) == k + 1
    ensures forall i, j :: 0 <= i < j < |docs| ==> lines[2 * i] != lines[2 * j]
  {
    forall n: nat | 1 <= n <= |docs|
      ensures ParseDecimal(DecimalString(n)) == n
    {
      ParseDecimalString(n);
    }
  }

  /**
   * In custom-id mode every action line names the index "music"; its `_id`
   * is the document's `musicName` whenever that key is present, whatever its
   * value, and the file stem only when the key is absent; the body line is
   * the object unchanged.
   */
  lemma CustomIds(lines: seq<JsonValue>, entries: seq<Entry>)
    requires CustomPairing(lines, entries)
    ensures |lines| % 2 == 0
    ensures forall k :: 0 <= k < |entries| ==>
              && lines[2 * k].fields["index"].fields["_index"] == Str("music")
              && ("musicName" in entries[k].fields ==>
                    lines[2 * k].fields["index"].fields["_id"] == entries[k].fields["musicName"])
              && ("musicName" !in entries[k].fields ==>
                    lines[2 * k].fields["index"].fields["_id"] == Str(entries[k].stem))
              && lines[2 * k + 1] == Object(entries[k].fields)
  {
  }

  /**
   * When the directory happens to list its files in name order, the preview
   * prints exactly the first lines of the sequential-mode payload.
   */
  lemma PreviewMatchesRun(listing: seq<SourceFile>, numSamples: int, preview: seq<JsonValue>, run: seq<JsonValue>)
    requires Sorted(listing) && UniqueNames(listing)
    requires SequentialPairing(preview, Documents(SliceTo(listing, numSamples)))
    requires SequentialPairing(run, Documents(SortByName(listing)))
    ensures |preview| <= |run| && preview == run[..|preview|]
  {
    SortKeepsSortedListing(listing);
    var sample := SliceTo(listing, numSamples);
    assert sample == listing[..|sample|];
    PrefixContributions(listing, |sample|);
    PairingPrefix(preview, run, Documents(sample), Documents(listing));
  }

  /** Pairings of a prefix of the documents form a prefix of the lines. */
  lemma PairingPrefix(few: seq<JsonValue>, all: seq<JsonValue>, fewDocs: seq<JsonValue>, allDocs: seq<JsonValue>)
    requires |fewDocs| <= |allDocs| && fewDocs == allDocs[..|fewDocs|]
    requires SequentialPairing(few, fewDocs) && SequentialPairing(all, allDocs)
    ensures |few| <= |all| && few == all[..|few|]
  {
    forall i | 0 <= i < |few|
      ensures few[i] == all[i]
    {
      var k := i / 2;
      assert fewDocs[k] == allDocs[k];
      if i % 2 == 0 {
        assert i == 2 * k;
      } else {
        assert i == 2 * k + 1;
      }
    }
  }

  /** The sequential pairing determines the lines: one payload per run of documents. */
  lemma SequentialPairingUnique(a: seq<JsonValue>, b: seq<JsonValue>, docs: seq<JsonValue>)
    requires SequentialPairing(a, docs) && SequentialPairing(b, docs)
    ensures a == b
  {
    forall i | 0 <= i < |a|
      ensures a[i] == b[i]
    {
      var k := i / 2;
      assert k < |docs|;
      assert a[2 * k] == b[2 * k] && a[2 * k + 1] == b[2 * k + 1];
      if i % 2 == 0 {
        assert i == 2 * k;
      } else {
        assert i == 2 * k + 1;
      }
    }
  }

  /**
   * Two runs over directories holding the same entries, listed in different
   * orders, produce the same sequential payload.
   */
  lemma PayloadIgnoresListingOrder(a: Folder, b: Folder, linesA: seq<JsonValue>, linesB: seq<JsonValue>)
    requires a.Directory? && b.Directory?
    requires multiset(a.entries) == multiset(b.entries) && UniqueNames(b.entries)
    requires SequentialPairing(linesA, Documents(SortByName(JsonFiles(a))))
    requires SequentialPairing(linesB, Documents(SortByName(JsonFiles(b))))
    ensures linesA == linesB
  {
    ListingOrderIrrelevant(a, b);
    SequentialPairingUnique(linesA, linesB, Documents(SortByName(JsonFiles(b))));
  }
}

=== FILE: Json.dfy ===
/**
 * JSON values as Python's json module hands them to the converter, the
 * `dict.get` lookup the converter uses on them, and the decimal rendering
 * `str(n)` that produces every sequential id.
 */
module Json {

  /** A parsed JSON document. Objects are maps: key order is not modelled. */
  datatype JsonValue =
    | Null
    | Bool(b: bool)
    | Int(i: int)
    | Float(r: real)
    | Str(s: string)
    | Array(items: seq<JsonValue>)
    | Object(fields: map<string, JsonValue>)

  /** Python's `document.get(key, default)` on a parsed object. */
  function Get(fields: map<string, JsonValue>, key: string, default: JsonValue): (v: JsonValue)
    ensures key in fields ==> v == fields[key]
    ensures key !in fields ==> v == default
  {
    if key in fields then fields[key] else default
  }

  predicate IsDigit(c: char) {
    '0' <= c <= '9'
  }

  predicate IsDigits(s: string) {
    forall i :: 0 <= i < |s| ==> IsDigit(s[i])
  }

  function DigitChar(d: nat): (c: char)
    requires d < 10
    ensures IsDigit(c)
  {
    (48 + d) as char
  }

  function DigitValue(c: char): (d: nat)
    requires IsDigit(c)
    ensures d < 10
  {
    c as int - 48
  }

  /**
   * `str(n)` for a non-negative Python int: at least one decimal digit and
   * no leading zero unless the number is zero.
   */
  function DecimalString(n: nat): (s: string)
    ensures |s| >= 1 && IsDigits(s)
    ensures s[0] == '0' ==> n == 0
    ensures n < 10 <==> |s| == 1
  {
    if n < 10 then [DigitChar(n)] else DecimalString(n / 10) + [DigitChar(n % 10)]
  }

  /** `int(s)` for a string of decimal digits, read most significant digit first. */
  function ParseDecimal(s: string): nat
    requires IsDigits(s)
  {
    if s == [] then 0 else 10 * ParseDecimal(s[..|s| - 1]) + DigitValue(s[|s| - 1])
  }

  /** Reading back an id gives the counter value it was rendered from. */
  lemma {:induction false} ParseDecimalString(n: nat)
    ensures ParseDecimal(DecimalString(n)) == n
  {
    if n >= 10 {
      var s := DecimalString(n);
      assert s[..|s| - 1] == DecimalString(n / 10);
      ParseDecimalString(n / 10);
    }
  }

  /** Different counter values render to different id strings. */
  lemma DecimalStringInjective(m: nat, n: nat)
    requires DecimalString(m) == DecimalString(n)
    ensures m == n
  {
    ParseDecimalString(m);
    ParseDecimalString(n);
  }
}

=== FILE: Loader.dfy ===
/**
 * The loader shared by both converters: which files of the input folder are
 * considered, how one file is read (a BOM-aware attempt, then a plain UTF-8
 * retry), the file stem, and which files survive the per-file skip policy.
 */
module Loader {
  import opened Json

  /** What one `open(...)` + `json.load(f)` attempt with a given encoding yields. */
  datatype Attempt =
    | Loaded(value: JsonValue) // the text decoded and parsed
    | InvalidJson              // json.JSONDecodeError
    | BadEncoding              // UnicodeDecodeError while decoding the bytes
    | Failed                   // any other exception (unreadable file, a directory named *.json, ...)

  /**
   * One directory entry: its file name, what reading it with encoding
   * 'utf-8-sig' yields, and what the retry with plain 'utf-8' would yield.
   */
  datatype SourceFile = SourceFile(name: string, withBom: Attempt, plain: Attempt)

  /** How the per-file `try` block ends before any record is built. */
  datatype FileOutcome = Parsed(document: JsonValue) | DecodeError | OtherError

  /**
   * The nested `try` of every loader loop: the plain UTF-8 read is used only
   * when the BOM-aware read raised UnicodeDecodeError. A UnicodeDecodeError on
   * the retry is not a JSONDecodeError, so the outer handler files it under
   * "any other exception".
   */
  function Read(f: SourceFile): (o: FileOutcome)
    ensures o.Parsed? <==> f.withBom.Loaded? || (f.withBom.BadEncoding? && f.plain.Loaded?)
    ensures o.Parsed? && f.withBom.Loaded? ==> o.document == f.withBom.value
    ensures o.Parsed? && !f.withBom.Loaded? ==> o.document == f.plain.value
    ensures o.DecodeError? <==> f.withBom.InvalidJson? || (f.withBom.BadEncoding? && f.plain.InvalidJson?)
    ensures !f.withBom.BadEncoding? ==> o.Parsed? == f.withBom.Loaded?
  {
    match f.withBom
    case Loaded(v) => Parsed(v)
    case InvalidJson => DecodeError
    case Failed => OtherError
    case BadEncoding =>
      match f.plain
      case Loaded(v) => Parsed(v)
      case InvalidJson => DecodeError
      case _ => OtherError
  }

  /** The input folder as `os.path.exists` and `Path.glob` see it; entries are in directory order. */
  datatype Folder = Absent | NotADirectory | Directory(entries: seq<SourceFile>)

  /** The glob pattern `*.json` (case-sensitive, and `*` also matches a leading dot). */
  predicate IsJsonName(name: string) {
    |name| >= 5 && name[|name| - 5..] == ".json"
  }

  function MatchingEntries(entries: seq<SourceFile>): (files: seq<SourceFile>)
    ensures |files| <= |entries|
    ensures forall f :: f in files <==> f in entries && IsJsonName(f.name)
  {
    if entries == [] then []
    else (if IsJsonName(entries[0].name) then [entries[0]] else []) + MatchingEntries(entries[1..])
  }

  /** The glob keeps the matching entries in the order the directory lists them. */
  lemma {:induction false} MatchingEntriesConcat(a: seq<SourceFile>, b: seq<SourceFile>)
    ensures MatchingEntries(a + b) == MatchingEntries(a) + MatchingEntries(b)
    decreases |a|
  {
    if a == [] {
      assert a + b == b;
    } else {
      assert (a + b)[0] == a[0] && (a + b)[1..] == a[1..] + b;
      MatchingEntriesConcat(a[1..], b);
    }
  }

  /** The glob lists each matching entry as often as the directory does, and nothing else. */
  lemma {:induction false} MatchingEntriesCount(entries: seq<SourceFile>)
    ensures forall f :: multiset(MatchingEntries(entries))[f] == if IsJsonName(f.name) then multiset(entries)[f] else 0
    decreases |entries|
  {
    if entries != [] {
      MatchingEntriesCount(entries[1..]);
      assert entries == [entries[0]] + entries[1..];
      assert multiset(entries) == multiset{entries[0]} + multiset(entries[1..]);
    }
  }

  /**
   * `list(Path(folder).glob("*.json"))`: the matching entries in directory
   * order; a folder that is missing or is not a directory yields nothing.
   */
  function JsonFiles(folder: Folder): (files: seq<SourceFile>)
    ensures forall f :: f in files ==> IsJsonName(f.name)
    ensures folder.Directory? ==> forall f :: f in folder.entries && IsJsonName(f.name) ==> f in files
    ensures !folder.Directory? ==> files == []
  {
    match folder
    case Directory(entries) => MatchingEntries(entries)
    case _ => []
  }

  /** Index of the last '.' in the name, or -1 (Python's `str.rfind('.')`). */
  function LastDot(name: string): (i: int)
    ensures -1 <= i < |name|
    ensures i >= 0 ==> name[i] == '.'
    ensures forall j :: i < j < |name| ==> name[j] != '.'
  {
    if name == [] then -1
    else if name[|name| - 1] == '.' then |name| - 1
    else LastDot(name[..|name| - 1])
  }

  /**
   * `PurePath.stem`: the name without its last suffix; a leading or trailing
   * dot starts no suffix.
   */
  function Stem(name: string): (s: string)
    ensures |s| <= |name| && s == name[..|s|]
    ensures |s| < |name| ==> 0 < |s| < |name| - 1 && |s| == LastDot(name)
    ensures |s| == |name| ==> LastDot(name) <= 0 || LastDot(name) == |name| - 1
  {
    var i := LastDot(name);
    if 0 < i < |name| - 1 then name[..i] else name
  }

  /** The stem of a file matched by `*.json` is its name without ".json", except for a file named just ".json". */
  lemma StemOfJsonName(name: string)
    requires IsJsonName(name)
    ensures |name| > 5 ==> Stem(name) == name[..|name| - 5]
    ensures |name| == 5 ==> Stem(name) == name
  {
    var i := LastDot(name);
    var n := |name|;
    assert name[n - 5] == '.' by { assert name[n - 5..][0] == '.'; }
    assert forall j :: n - 5 < j < n ==> name[j] == name[n - 5..][j - (n - 5)];
    assert i == n - 5;
  }

  /** A file saved as `<stem>.json` is matched by the glob, and its stem is given back. */
  lemma StemRoundTrip(stem: string)
    requires stem != []
    ensures IsJsonName(stem + ".json")
    ensures Stem(stem + ".json") == stem
  {
    var name := stem + ".json";
    assert name[|name| - 5..] == ".json";
    StemOfJsonName(name);
    assert name[..|name| - 5] == stem;
  }

  /** The document a file contributes in the modes that pass any parsed value through. */
  function DocumentOf(f: SourceFile): seq<JsonValue> {
    match Read(f)
    case Parsed(d) => [d]
    case _ => []
  }

  /** The parsed documents of the files that load, in file order; failed files contribute nothing. */
  function Documents(files: seq<SourceFile>): (docs: seq<JsonValue>)
    ensures |docs| <= |files|
  {
    if files == [] then [] else DocumentOf(files[0]) + Documents(files[1..])
  }

  /** A loaded top-level object together with the stem of the file it came from. */
  datatype Entry = Entry(stem: string, fields: map<string, JsonValue>)

  /** What a file contributes in the modes that call `.get` on the document. */
  function ObjectOf(f: SourceFile): seq<Entry> {
    match Read(f)
    case Parsed(Object(fields)) => [Entry(Stem(f.name), fields)]
    case _ => []
  }

  /**
   * The files that load to a JSON object, in file order. A top-level array,
   * string, number or null has no `.get`, so those files are skipped too.
   */
  function Objects(files: seq<SourceFile>): (entries: seq<Entry>)
    ensures |entries| <= |files|
  {
    if files == [] then [] else ObjectOf(files[0]) + Objects(files[1..])
  }

  lemma {:induction false} DocumentsConcat(a: seq<SourceFile>, b: seq<SourceFile>)
    ensures Documents(a + b) == Documents(a) + Documents(b)
    decreases |a|
  {
    if a == [] {
      assert a + b == b;
    } else {
      assert (a + b)[0] == a[0] && (a + b)[1..] == a[1..] + b;
      DocumentsConcat(a[1..], b);
      calc {
        Documents(a + b);
        DocumentOf(a[0]) + Documents(a[1..] + b);
        DocumentOf(a[0]) + (Documents(a[1..]) + Documents(b));
        (DocumentOf(a[0]) + Documents(a[1..])) + Documents(b);
      }
    }
  }

  lemma {:induction false} ObjectsConcat(a: seq<SourceFile>, b: seq<SourceFile>)
    ensures Objects(a + b) == Objects(a) + Objects(b)
    decreases |a|
  {
    if a == [] {
      assert a + b == b;
    } else {
      assert (a + b)[0] == a[0] && (a + b)[1..] == a[1..] + b;
      ObjectsConcat(a[1..], b);
      calc {
        Objects(a + b);
        ObjectOf(a[0]) + Objects(a[1..] + b);
        ObjectOf(a[0]) + (Objects(a[1..]) + Objects(b));
        (ObjectOf(a[0]) + Objects(a[1..])) + Objects(b);
      }
    }
  }

  /** A file that does not load contributes nothing on its own. */
  lemma FailedFileContributesNothing(bad: SourceFile)
    requires !Read(bad).Parsed?
    ensures Documents([bad]) == [] && Objects([bad]) == []
  {
    var one := [bad];
    assert one[0] == bad && one[1..] == [];
  }

  /** One more file processed: its own contribution is appended. */
  lemma DocumentsExtend(files: seq<SourceFile>, i: nat)
    requires i < |files|
    ensures Documents(files[..i + 1]) == Documents(files[..i]) + DocumentOf(files[i])
  {
    var one := [files[i]];
    assert files[..i + 1] == files[..i] + one;
    assert one[0] == files[i] && one[1..] == [];
    assert Documents(one) == DocumentOf(files[i]) + Documents([]);
    DocumentsConcat(files[..i], one);
  }

  lemma ObjectsExtend(files: seq<SourceFile>, i: nat)
    requires i < |files|
    ensures Objects(files[..i + 1]) == Objects(files[..i]) + ObjectOf(files[i])
  {
    var one := [files[i]];
    assert files[..i + 1] == files[..i] + one;
    assert one[0] == files[i] && one[1..] == [];
    assert Objects(one) == ObjectOf(files[i]) + Objects([]);
    ObjectsConcat(files[..i], one);
  }

  /** Skip-and-continue: a file that fails to load leaves the others' contributions untouched. */
  lemma SkipAndContinue(before: seq<SourceFile>, bad: SourceFile, after: seq<SourceFile>)
    requires !Read(bad).Parsed?
    ensures Documents(before + [bad] + after) == Documents(before) + Documents(after)
    ensures Objects(before + [bad] + after) == Objects(before) + Objects(after)
  {
    FailedFileContributesNothing(bad);
    var upTo := before + [bad];
    DocumentsConcat(upTo, after);
    DocumentsConcat(before, [bad]);
    assert Documents(upTo) == Documents(before);
    ObjectsConcat(upTo, after);
    ObjectsConcat(before, [bad]);
    assert Objects(upTo) == Objects(before);
  }

  /** Every object that the `.get` modes keep is also a document the pass-through modes keep. */
  lemma {:induction false} ObjectsAtMostDocuments(files: seq<SourceFile>)
    ensures |Objects(files)| <= |Documents(files)|
  {
    if files != [] {
      ObjectsAtMostDocuments(files[1..]);
    }
  }

  /** Processing a prefix of the files yields a prefix of what processing all of them yields. */
  lemma PrefixContributions(files: seq<SourceFile>, n: nat)
    requires n <= |files|
    ensures |Documents(files[..n])| <= |Documents(files)|
    ensures Documents(files[..n]) == Documents(files)[..|Documents(files[..n])|]
    ensures |Objects(files[..n])| <= |Objects(files)|
    ensures Objects(files[..n]) == Objects(files)[..|Objects(files[..n])|]
  {
    assert files == files[..n] + files[n..];
    DocumentsConcat(files[..n], files[n..]);
    ObjectsConcat(files[..n], files[n..]);
  }

  /** Python's `items[:n]`: the first n items, or all but the last -n when n is negative. */
  function SliceTo<T>(s: seq<T>, n: int): (r: seq<T>)
    ensures |r| <= |s| && r == s[..|r|]
    ensures 0 <= n ==> |r| == if n <= |s| then n else |s|
    ensures n < 0 ==> |r| == if -n <= |s| then |s| + n else 0
  {
    if 0 <= n then (if n <= |s| then s[..n] else s)
    else if -n <= |s| then s[..|s| + n]
    else []
  }

  /** How one conversion run ends. */
  datatype RunOutcome<T> =
    | FolderMissing   // the input folder does not exist: return before any work
    | NoJsonFiles     // the folder matches no *.json file: return before any work
    | NothingToWrite  // every file was skipped: no output file is created
    | WriteFailed     // opening or writing the output file raised
    | Saved(contents: T)

  /** The end of every run: write only when something was accumulated. */
  function Conclude<T>(accumulated: bool, writable: bool, contents: T): (o: RunOutcome<T>)
    ensures o.Saved? <==> accumulated && writable
    ensures o.Saved? ==> o.contents == contents
    ensures !accumulated ==> o == NothingToWrite
    ensures accumulated && !writable ==> o == WriteFailed
  {
    if !accumulated then NothingToWrite else if !writable then WriteFailed else Saved(contents)
  }
}

=== FILE: Ordering.dfy ===
/**
 * `sorted(json_files)`: both converters visit the matched files in ascending
 * name order. Paths in one folder compare by their names, and Python compares
 * strings code point by code point.
 */
module Ordering {
  import opened Loader

  /** Python's `a <= b` on `str`. */
  predicate NameLe(a: string, b: string)
    decreases |a|
  {
    a == [] || (b != [] && (a[0] < b[0] || (a[0] == b[0] && NameLe(a[1..], b[1..]))))
  }

  lemma {:induction false} NameLeReflexive(a: string)
    ensures NameLe(a, a)
    decreases |a|
  {
    if a != [] {
      NameLeReflexive(a[1..]);
    }
  }

  lemma {:induction false} NameLeTotal(a: string, b: string)
    ensures NameLe(a, b) || NameLe(b, a)
    decreases |a|
  {
    if a != [] && b != [] && a[0] == b[0] {
      NameLeTotal(a[1..], b[1..]);
    }
  }

  lemma {:induction false} NameLeAntisymmetric(a: string, b: string)
    requires NameLe(a, b) && NameLe(b, a)
    ensures a == b
    decreases |a|
  {
    if a != [] {
      NameLeAntisymmetric(a[1..], b[1..]);
      assert a == [a[0]] + a[1..] && b == [b[0]] + b[1..];
    }
  }

  lemma {:induction false} NameLeTransitive(a: string, b: string, c: string)
    requires NameLe(a, b) && NameLe(b, c)
    ensures NameLe(a, c)
    decreases |a|
  {
    if a != [] && a[0] == b[0] && b[0] == c[0] {
      NameLeTransitive(a[1..], b[1..], c[1..]);
    }
  }

  /** Files in ascending name order. */
  predicate Sorted(s: seq<SourceFile>) {
    forall i, j :: 0 <= i < j < |s| ==> NameLe(s[i].name, s[j].name)
  }

  /** Any two files of the listing with the same name are the same entry, as in one directory. */
  predicate UniqueNames(s: seq<SourceFile>) {
    forall x, y :: x in s && y in s && x.name == y.name ==> x == y
  }

  function Insert(x: SourceFile, s: seq<SourceFile>): (r: seq<SourceFile>)
    ensures multiset(r) == multiset(s) + multiset{x}
  {
    if s == [] || NameLe(x.name, s[0].name) then [x] + s
    else
      assert s == [s[0]] + s[1..];
      [s[0]] + Insert(x, s[1..])
  }

  lemma {:induction false} InsertSorted(x: SourceFile, s: seq<SourceFile>)
    requires Sorted(s)
    ensures Sorted(Insert(x, s))
    decreases |s|
  {
    if s == [] {
    } else if NameLe(x.name, s[0].name) {
      var r := [x] + s;
      forall i, j | 0 <= i < j < |r|
        ensures NameLe(r[i].name, r[j].name)
      {
        if i == 0 && j > 1 {
          NameLeTransitive(x.name, s[0].name, s[j - 1].name);
        }
      }
    } else {
      SortedTail(s);
      InsertSorted(x, s[1..]);
      InsertBehindHead(x, s);
    }
  }

  /** Inserting behind the head keeps the head first, since it is no greater than x or the rest. */
  lemma InsertBehindHead(x: SourceFile, s: seq<SourceFile>)
    requires Sorted(s) && s != [] && !NameLe(x.name, s[0].name)
    requires Sorted(Insert(x, s[1..]))
    ensures Sorted(Insert(x, s))
  {
    NameLeTotal(x.name, s[0].name);
    var tail := s[1..];
    var rest := Insert(x, tail);
    forall y | y in rest
      ensures NameLe(s[0].name, y.name)
    {
      assert y in multiset(rest);
      if y != x {
        assert y in multiset(tail);
        var k :| 0 <= k < |tail| && tail[k] == y;
        assert s[k + 1] == y;
      }
    }
    HeadBeforeSorted(s[0], rest);
  }

  /** A file no greater than any file of a name-ordered list can go in front of it. */
  lemma HeadBeforeSorted(h: SourceFile, rest: seq<SourceFile>)
    requires Sorted(rest)
    requires forall y :: y in rest ==> NameLe(h.name, y.name)
    ensures Sorted([h] + rest)
  {
    var r := [h] + rest;
    forall i, j | 0 <= i < j < |r|
      ensures NameLe(r[i].name, r[j].name)
    {
      assert r[j] == rest[j - 1];
      if i > 0 {
        assert r[i] == rest[i - 1];
      }
    }
  }

  /** `sorted(json_files)`: the same files, in ascending name order. */
  function SortByName(s: seq<SourceFile>): (r: seq<SourceFile>)
    ensures Sorted(r)
    ensures multiset(r) == multiset(s)
    ensures |r| == |s|
  {
    if s == [] then []
    else
      assert s == [s[0]] + s[1..];
      var rest := SortByName(s[1..]);
      InsertSorted(s[0], rest);
      Insert(s[0], rest)
  }

  lemma SortedTail(s: seq<SourceFile>)
    requires Sorted(s) && s != []
    ensures Sorted(s[1..])
  {
    var tail := s[1..];
    forall a, b | 0 <= a < b < |tail|
      ensures NameLe(tail[a].name, tail[b].name)
    {
      assert tail[a] == s[a + 1] && tail[b] == s[b + 1];
    }
  }

  /** The first of two name-ordered arrangements of the same files is the same file. */
  lemma SortedSameHead(s: seq<SourceFile>, t: seq<SourceFile>)
    requires Sorted(s) && Sorted(t) && s != []
    requires multiset(s) == multiset(t)
    requires UniqueNames(t)
    ensures t != [] && s[0] == t[0]
  {
    assert s[0] in multiset(t) && t[0] in multiset(s);
    var i :| 0 <= i < |s| && s[i] == t[0];
    var j :| 0 <= j < |t| && t[j] == s[0];
    if i != 0 && j != 0 {
      assert NameLe(s[0].name, t[0].name);
      assert NameLe(t[0].name, s[0].name);
      NameLeAntisymmetric(s[0].name, t[0].name);
      assert s[0] in t && t[0] in t;
    }
  }

  /** Removing the same first file from two arrangements of the same files leaves the same files. */
  lemma SameTails(s: seq<SourceFile>, t: seq<SourceFile>)
    requires s != [] && t != [] && s[0] == t[0]
    requires multiset(s) == multiset(t)
    ensures multiset(s[1..]) == multiset(t[1..])
  {
    assert s == [s[0]] + s[1..] && t == [t[0]] + t[1..];
    assert multiset(s) == multiset{s[0]} + multiset(s[1..]);
    assert multiset(t) == multiset{s[0]} + multiset(t[1..]);
    assert multiset(s[1..]) == multiset(s) - multiset{s[0]} == multiset(t[1..]);
  }

  lemma UniqueNamesTail(t: seq<SourceFile>)
    requires UniqueNames(t) && t != []
    ensures UniqueNames(t[1..])
  {
    forall x, y | x in t[1..] && y in t[1..] && x.name == y.name
      ensures x == y
    {
      assert x in t && y in t;
    }
  }

  /** Two name-ordered arrangements of the same files of one directory are identical. */
  lemma {:induction false} SortedUnique(s: seq<SourceFile>, t: seq<SourceFile>)
    requires Sorted(s) && Sorted(t)
    requires multiset(s) == multiset(t)
    requires UniqueNames(t)
    ensures s == t
    decreases |s|
  {
    if s == [] {
      assert |t| == |multiset(t)| == 0;
    } else {
      SortedSameHead(s, t);
      SameTails(s, t);
      SortedTail(s);
      SortedTail(t);
      UniqueNamesTail(t);
      SortedUnique(s[1..], t[1..]);
    }
  }

  /**
   * The processing order depends only on which files the folder holds, not on
   * the order in which the directory listing reports them.
   */
  lemma SortIgnoresEnumerationOrder(a: seq<SourceFile>, b: seq<SourceFile>)
    requires multiset(a) == multiset(b)
    requires UniqueNames(b)
    ensures SortByName(a) == SortByName(b)
  {
    var sb := SortByName(b);
    forall x, y | x in sb && y in sb && x.name == y.name
      ensures x == y
    {
      assert x in multiset(sb) && y in multiset(sb);
    }
    SortedUnique(SortByName(a), sb);
  }

  /**
   * Two listings of the same directory entries, in whatever order, lead to
   * the same files in the same processing order.
   */
  lemma ListingOrderIrrelevant(a: Folder, b: Folder)
    requires a.Directory? && b.Directory?
    requires multiset(a.entries) == multiset(b.entries)
    requires UniqueNames(b.entries)
    ensures SortByName(JsonFiles(a)) == SortByName(JsonFiles(b))
  {
    var fa, fb := JsonFiles(a), JsonFiles(b);
    MatchingEntriesCount(a.entries);
    MatchingEntriesCount(b.entries);
    assert multiset(fa) == multiset(fb) by {
      forall f
        ensures multiset(fa)[f] == multiset(fb)[f]
      {
      }
    }
    forall x, y | x in fb && y in fb && x.name == y.name
      ensures x == y
    {
    }
    SortIgnoresEnumerationOrder(fa, fb);
  }

  /** A listing already in name order is processed in that order. */
  lemma SortKeepsSortedListing(s: seq<SourceFile>)
    requires Sorted(s) && UniqueNames(s)
    ensures SortByName(s) == s
  {
    SortedUnique(SortByName(s), s);
  }
}
